=== FILE: README.md ===
# Deviation fragments and the direct-precedence exception, in Dafny

This project models two small rule-based pieces of a text-analysis system
that scores content quality.

- A **deviation fragment** is one exception rule of the syllable counter. It
  holds a fragment of a word, a location policy and a syllable count. The
  location policy is `atBeginning`, `atEnd`, `atBeginningOrEnd`, or anything
  else, which means anywhere. The fragment can tell whether it occurs in a
  word (`occursIn`). It can cut its first occurrence out of a word, leaving
  one space (`removeFrom`). It reports its syllable count (`getSyllables`).
  It builds its regular expression lazily, once, and caches it (`getRegex`,
  `createRegex`).
- The **direct-precedence exception check** of passive-voice detection picks
  the "cannot directly precede a passive participle" word list of a language
  by its code: `fr`, `es`, `it`, `nl` or `pl`, and English for every other
  code. It builds a matcher from that list with `arrayToRegex`, passes the
  sentence part and the matcher to `getWordIndices`, and passes what that
  returns, with the participle index, to `includesIndex`, whose answer it
  returns.

Modules:

- `Wrappers` (wrappers.dfy): `Option`.
- `LiteralMatch` (literal_match.dfy): prefix, suffix and substring
  predicates, first occurrence, and first-occurrence replacement. The last
  is what `String.prototype.replace` does with a string pattern.
- `Patterns` (patterns.dfy): the regular expressions a fragment builds, as
  data. Each is an alternation of literals, each literal optionally anchored
  with `^` or `$`. The module gives their matching semantics and proves what
  each shape matches.
- `DeviationFragments` (deviation_fragment.dfy): the fragment as an
  immutable value. The regex cache is a field, and every operation that may
  fill it returns the updated fragment.
- `DeviationExamples` (deviation_examples.dfy): concrete words, including
  the two places where the code departs from what the location names
  suggest.
- `DirectPrecedence` (direct_precedence.dfy): language dispatch and the
  check. The three imported helpers are fields of a `Helpers` record over an
  unspecified matcher type and an unspecified type of what `getWordIndices`
  returns. The six word lists are fields of a `WordLists`
  record. Neither has a guessed body.

Three behaviours of the code that its names might lead a reader to expect
otherwise:

- `atBeginningOrEnd` builds `(^f)|(f)`. The second alternative has no `$`,
  so this policy matches wherever the fragment occurs, exactly like the
  default. It does not mean "at the start or at the end".
- The fragment text is not checked for emptiness. An empty fragment behaves
  the same in the model as in the code: every pattern matches, and removal
  puts a space in front of the word.
- The check's own code does not decide what "directly preceding" means.
  That lies in the imported `getWordIndices` and `includesIndex`, which the
  model leaves unspecified. What the model proves is which list is chosen
  and that the answer is exactly the helpers' composition on it.

## Model

| member | source | states |
|---|---|---|
| `DeviationFragments.New` | js/stringProcessing/syllables/DeviationFragment.js:13-24 | the fragment keeps the configured location, word and syllable count, the remaining `notFollowedBy`/`alsoFollowedBy` options, and starts with an empty regex cache that is consistent |
| `DeviationFragments.LocationOf` | js/stringProcessing/syllables/DeviationFragment.js:32-48 | a location other than the default is selected only by exactly its own spelling, and its own spelling always selects it; any other string, or none, selects the unanchored default |
| `DeviationFragments.LocationRoundTrip` | js/stringProcessing/syllables/DeviationFragment.js:32-48 | each of the four policies is selected by its own spelling (none for the default) |
| `DeviationFragments.Matcher` | js/stringProcessing/syllables/DeviationFragment.js:32-48 | every alternative of the built pattern reads the fragment literally, and the pattern matches a word exactly when the pattern source says so: `^f` "starts with f", `f$` "ends with f", the `atBeginningOrEnd` pattern "starts with f, or contains f", `f` "contains f" |
| `Patterns.Test` | js/stringProcessing/syllables/DeviationFragment.js:75 | a fresh scan of the word matches iff some alternative holds of it: a `^f$` alternative when the word is `f`, `^f` when it starts with `f`, `f$` when it ends with `f`, bare `f` when it contains `f` |
| `DeviationFragments.MatcherMeaning` | js/stringProcessing/syllables/DeviationFragment.js:32-48 | the built pattern matches a word iff: the word starts with the fragment (`atBeginning`); the word ends with it (`atEnd`); the fragment is a substring of the word (`atBeginningOrEnd` and every other location) |
| `DeviationFragments.CreateRegex` | js/stringProcessing/syllables/DeviationFragment.js:29-51 | building the pattern fills the cache with the pattern of the configuration and changes nothing else |
| `DeviationFragments.GetRegex` | js/stringProcessing/syllables/DeviationFragment.js:58-64 | returns the pattern of the configuration; builds it only when the cache is empty; with a filled cache returns the cached pattern and leaves the fragment unchanged |
| `DeviationFragments.GetRegexIdempotent` | js/stringProcessing/syllables/DeviationFragment.js:58-64 | a second `getRegex` changes nothing and returns the first one's pattern |
| `DeviationFragments.RunBuildsRegexOnce` | js/stringProcessing/syllables/DeviationFragment.js:17 | over any sequence of the five public calls the cache goes from empty to built exactly when some `occursIn`, `getRegex` or `createRegex` call comes, is never emptied again, and holds the configuration's pattern |
| `DeviationFragments.OccursIn` | js/stringProcessing/syllables/DeviationFragment.js:72-76 | with `atBeginning` the answer is "the word starts with the fragment", with `atEnd` "ends with it", with `atBeginningOrEnd` and any other location "contains it"; the configuration is unchanged and the cache is left built |
| `DeviationFragments.OccursInStateless` | js/stringProcessing/syllables/DeviationFragment.js:72-76 | the answer for a word does not depend on any earlier call |
| `DeviationFragments.RemoveFrom` | js/stringProcessing/syllables/DeviationFragment.js:84-88 | a word without the fragment is returned unchanged; otherwise the first occurrence becomes one space, the result is one character longer than the word minus the fragment, and every character before and after the replaced span is kept |
| `DeviationFragments.RemovalIgnoresLocation` | js/stringProcessing/syllables/DeviationFragment.js:87 | two fragments with the same text remove the same span from every word, whatever their locations |
| `DeviationFragments.SyllablesFixedAtConstruction` | js/stringProcessing/syllables/DeviationFragment.js:95-97 | `getSyllables` answers the constructor's count after any sequence of `occursIn`, `removeFrom`, `getRegex`, `createRegex` and `getSyllables` calls, for every fragment text |
| `DeviationFragments.RunKeepsConfiguration` | js/stringProcessing/syllables/DeviationFragment.js:13-24 | no sequence of `occursIn`, `removeFrom`, `getRegex`, `createRegex` and `getSyllables` calls changes the location, fragment, syllable count or kept options, or breaks the cache's consistency; once built, the cached pattern never changes (`createRegex` rebuilds it, but to an equal one) |
| `DeviationFragments.ExtraOptionsInert` | js/stringProcessing/syllables/DeviationFragment.js:23 | the kept `notFollowedBy`/`alsoFollowedBy` options change no answer of `occursIn`, `removeFrom` or `getSyllables` |
| `LiteralMatch.IndexOf` | js/stringProcessing/syllables/DeviationFragment.js:87 | finds a position iff the fragment is a substring of the word, and the position found is the leftmost occurrence |
| `LiteralMatch.IndexFrom` | js/stringProcessing/syllables/DeviationFragment.js:87 | the position found at or after `from` is an occurrence with none before it from `from` on; no position means no occurrence from `from` on |
| `LiteralMatch.ReplaceFirst` | js/stringProcessing/syllables/DeviationFragment.js:87 | a string-pattern `replace` leaves a word without the pattern alone, and otherwise keeps what precedes and follows the first occurrence and puts the replacement in its place |
| `LiteralMatch.FirstOccurrenceUnique` | js/stringProcessing/syllables/DeviationFragment.js:87 | the occurrence `replace` acts on is unique |
| `LiteralMatch.AnchoredImpliesContains` | js/stringProcessing/syllables/DeviationFragment.js:42 | a fragment at the start or the end of a word is a substring of it, so the anchored first alternative of the `atBeginningOrEnd` pattern adds nothing |
| `Patterns.StartAnchoredMeansPrefix` | js/stringProcessing/syllables/DeviationFragment.js:34 | `^f` matches exactly the words that start with `f` |
| `Patterns.EndAnchoredMeansSuffix` | js/stringProcessing/syllables/DeviationFragment.js:38 | `f$` matches exactly the words that end with `f` |
| `Patterns.TestAlternation` | js/stringProcessing/syllables/DeviationFragment.js:42 | an alternation of two branches matches exactly when one of them does |
| `Patterns.UnanchoredMeansContains` | js/stringProcessing/syllables/DeviationFragment.js:46 | unanchored `f` matches exactly the words that contain `f` |
| `DeviationExamples.TionByLocation` | js/stringProcessing/syllables/DeviationFragment.js:32-48 | "tion": at the end matches "nation" and not "national"; at the beginning matches "tionary" and not "nation"; anywhere matches both |
| `DeviationExamples.BeginningOrEndMatchesInTheMiddle` | js/stringProcessing/syllables/DeviationFragment.js:41-43 | with `atBeginningOrEnd`, "tion" matches "nationally", which neither starts nor ends with it |
| `DeviationExamples.RemovalIgnoresAnchor` | js/stringProcessing/syllables/DeviationFragment.js:84-88 | "tion" at the end does not occur in "nationally", yet removing it gives "na ally" |
| `DeviationExamples.RemoveLyFromHappily` | js/stringProcessing/syllables/DeviationFragment.js:87 | removing "ly" from "happily" gives "happi " |
| `DeviationExamples.RemoveFirstOccurrenceOnly` | js/stringProcessing/syllables/DeviationFragment.js:87 | removing "a" from "banana" gives "b nana": only the first occurrence goes |
| `DirectPrecedence.LanguageOf` | packages/yoastseo/src/languageProcessing/helpers/_todo/directPrecedenceException.js:37-57 | a code selects French, Spanish, Italian, Dutch or Polish only by being exactly "fr", "es", "it", "nl" or "pl", and each of those codes always selects its language; every other code selects English |
| `DirectPrecedence.LanguageRoundTrip` | packages/yoastseo/src/languageProcessing/helpers/_todo/directPrecedenceException.js:37-57 | each language's code selects that language's list |
| `DirectPrecedence.EnglishIsTheDefault` | packages/yoastseo/src/languageProcessing/helpers/_todo/directPrecedenceException.js:53-56 | dispatch is total, and English is selected exactly by the codes outside the listed five |
| `DirectPrecedence.DispatchIsExact` | packages/yoastseo/src/languageProcessing/helpers/_todo/directPrecedenceException.js:37-56 | "FR", "fr-FR" and "" fall back to English; "fr" selects French |
| `DirectPrecedence.IsDirectPrecedenceException` | packages/yoastseo/src/languageProcessing/helpers/_todo/directPrecedenceException.js:35-60 | the answer is `includesIndex(getWordIndices(sentencePart, arrayToRegex(L)), participleIndex)` for the list `L` of the language the code selects, with nothing assumed of the three helpers |
| `DirectPrecedence.UnlistedCodeAnswersAsEnglish` | packages/yoastseo/src/languageProcessing/helpers/_todo/directPrecedenceException.js:53-56 | any code outside the listed five answers as "en" does, for every sentence part and index |
| `DirectPrecedence.SameListSameAnswer` | packages/yoastseo/src/languageProcessing/helpers/_todo/directPrecedenceException.js:35-60 | two codes that select the same list answer alike for every sentence part and index |
| `DirectPrecedence.OnlySelectedListMatters` | packages/yoastseo/src/languageProcessing/helpers/_todo/directPrecedenceException.js:58-59 | the lists of the languages not selected do not influence the answer |

## Left out

- The regular-expression engine. Patterns are modelled only in the shapes
  the fragment builds, with the fragment text read literally.
- `DeviationFragments.OccursIn`: requires `PlainLiteral`, that the fragment
  hold no regex metacharacter. The source splices the fragment into the
  pattern unescaped, so a fragment with a metacharacter would be read as
  regex syntax, which is not modelled. It also requires `Valid`, a
  consistent cache. That holds for every fragment made by `New` and any
  sequence of calls (`DeviationFragments.RunKeepsConfiguration`). Its answer
  is that of a fresh scan. The source guarantees that only for the first
  call, for calls after a miss, and for the first call after `createRegex`,
  which installs a new pattern whose `lastIndex` is 0 (see the next line).
  With `atBeginning` and a non-empty fragment, every call straight after a
  hit misses unless `createRegex` comes in between.
- `DeviationFragments.OccursInStateless`: states the answer of a fresh
  scan. The source compiles its pattern with the global flag `g`, and
  `RegExp.prototype.test` then keeps `lastIndex` between calls. After a hit,
  `lastIndex` is the end of the match, and the next `occursIn`, on any
  word, searches only from there, unless `createRegex` comes first: it
  replaces the pattern with a new one whose `lastIndex` is 0. After a miss
  `lastIndex` is reset to 0. So a call straight after a hit, with no
  `createRegex` in between, answers differently from a fresh scan exactly
  when its word has a match, but none that starts at or after that
  `lastIndex`. With `atBeginning` and a non-empty fragment, `^` matches only
  at position 0 and `lastIndex` is then positive. So every such call misses,
  on any word including the same one: `occursIn` on "tionary" answers true,
  false, true, and so on. A caller that runs `test` itself on the pattern
  `getRegex` returns moves the same `lastIndex`. With the empty fragment and any
  location but `atEnd`, the match is empty at position 0, so `lastIndex`
  stays 0 and every answer is the fresh-scan one. With the empty fragment
  and `atEnd`, the pattern `$` matches at the end of the word. So after a
  hit, the next call misses exactly when its word is shorter than the
  previous one. The model does not include `lastIndex` or the flag.
- The destructive `delete` of `location`, `word` and `syllables` from the
  caller's options object. Construction builds an immutable record instead.
  Of the remaining options only `notFollowedBy` and `alsoFollowedBy` are
  kept; other keys an object might carry are not modelled. The `options ||
  {}` fallback is unreachable, since `options` was already dereferenced.
- Strings are sequences of Dafny `char`s, which are Unicode scalar values.
  JavaScript strings are sequences of UTF-16 code units and may hold lone
  surrogates. No proved result depends on the difference. Positions in the
  model count characters, not code units.
- Dynamic typing. The location is an optional string, the word a string and
  the syllable count an integer; a caller passing other types is not
  modelled.
- The bodies of `getIndicesWithRegex`, `includesIndex` and
  `createRegexFromArray`, and the six `functionWords` factories. These files
  are not part of this model. They enter as parameters with no assumed
  behaviour.
- "The word lists are computed once at module load and never mutated": this
  holds by construction rather than by a lemma. The lists are one immutable
  `WordLists` value, and no member returns a changed one. Module loading
  itself is not modelled.
- `getSyllables` has no contract of its own. It only returns the field.
  Its property is stated by `DeviationFragments.SyllablesFixedAtConstruction`.

=== FILE: deviation_examples.dfy ===
/** Deviation fragments on concrete words, including the two places where
    the code's behaviour departs from what the location names suggest. */
module DeviationExamples {
  import opened Wrappers
  import opened LiteralMatch
  import opened DeviationFragments

  /** A fragment does not occur where its first character is missing. */
  lemma NotAt(f: string, w: string, j: nat)
    requires 0 < |f| && j < |w| && w[j] != f[0]
    ensures !OccursAt(f, w, j)
  {
    if j + |f| <= |w| {
      assert w[j..j + |f|][0] == w[j];
    }
  }

  function Tion(location: string): DeviationFragment {
    New(Options(Some(location), "tion", 1, None, None))
  }

  /** "tion" at the end matches "nation" but not "national"; at the
      beginning it matches "tionary" but not "nation"; anywhere it matches
      both "nation" and "national". */
  lemma TionByLocation()
    ensures OccursIn(Tion("atEnd"), "nation").1
    ensures !OccursIn(Tion("atEnd"), "national").1
    ensures OccursIn(Tion("atBeginning"), "tionary").1
    ensures !OccursIn(Tion("atBeginning"), "nation").1
    ensures OccursIn(Tion("anywhere"), "nation").1 && OccursIn(Tion("anywhere"), "national").1
  {
    assert "nation"[2..6] == "tion";
    assert "national"[2..6] == "tion";
  }

  /** With `atBeginningOrEnd` the fragment matches in the middle of a word
      that neither starts nor ends with it: the second alternative of
      `(^f)|(f)` is not anchored. */
  lemma BeginningOrEndMatchesInTheMiddle()
    ensures !IsPrefix("tion", "nationally") && !IsSuffix("tion", "nationally")
    ensures OccursIn(Tion("atBeginningOrEnd"), "nationally").1
  {
    var w := "nationally";
    assert w[..4][0] != 't';
    assert w[6..][0] != 't';
    assert w[2..6] == "tion";
  }

  /** Removal ignores the location: a fragment that does not occur at the
      end of a word is still cut out of its middle. */
  lemma RemovalIgnoresAnchor()
    ensures !OccursIn(Tion("atEnd"), "nationally").1
    ensures RemoveFrom(Tion("atEnd"), "nationally") == "na ally"
  {
    var w := "nationally";
    assert IsFirstOccurrence("tion", w, 2) by {
      assert w[2..6] == "tion";
      NotAt("tion", w, 0);
      NotAt("tion", w, 1);
    }
    var r := RemoveFrom(Tion("atEnd"), w);
    assert |r| == 7;
    assert r == "na ally";
  }

  /** The fragment "ly" of "happily" becomes one space. */
  lemma RemoveLyFromHappily()
    ensures RemoveFrom(New(Options(None, "ly", -1, None, None)), "happily") == "happi "
  {
    var w := "happily";
    assert IsFirstOccurrence("ly", w, 5) by {
      assert w[5..7] == "ly";
      NotAt("ly", w, 0);
      NotAt("ly", w, 1);
      NotAt("ly", w, 2);
      NotAt("ly", w, 3);
      NotAt("ly", w, 4);
    }
    var r := RemoveFrom(New(Options(None, "ly", -1, None, None)), w);
    assert |r| == 6;
    assert r == "happi ";
  }

  /** Only the first occurrence is replaced; later ones stay. */
  lemma RemoveFirstOccurrenceOnly()
    ensures RemoveFrom(New(Options(None, "a", 0, None, None)), "banana") == "b nana"
  {
    var v := "banana";
    assert IsFirstOccurrence("a", v, 1) by {
      assert v[1..2] == "a";
      NotAt("a", v, 0);
    }
    var s := RemoveFrom(New(Options(None, "a", 0, None, None)), v);
    assert |s| == 6;
    assert s == "b nana";
  }
}

=== FILE: deviation_fragment.dfy ===
/** One syllable-count exception rule: a fragment of a word, where in the
    word it has to occur, and how many syllables it counts for.

    The object is modelled as an immutable value. Its one piece of mutable
    state, the lazily built regular expression, is the `regex` field; every
    operation that may build it returns the updated fragment alongside its
    answer. */
module DeviationFragments {
  import opened Wrappers
  import opened LiteralMatch
  import opened Patterns

  /** Where in a word the fragment has to occur. */
  datatype Location = AtBeginning | AtEnd | AtBeginningOrEnd | Anywhere

  /** The configuration object handed to the constructor. A field the caller
      omitted is `None`. */
  datatype Options = Options(
    location: Option<string>,
    word: string,
    syllables: int,
    notFollowedBy: Option<seq<string>>,
    alsoFollowedBy: Option<seq<string>>)

  /** What is left of the configuration object once the constructor has
      taken `location`, `word` and `syllables` out of it. */
  datatype ExtraOptions = ExtraOptions(
    notFollowedBy: Option<seq<string>>,
    alsoFollowedBy: Option<seq<string>>)

  datatype DeviationFragment = DeviationFragment(
    location: Option<string>,
    fragment: string,
    syllables: int,
    regex: Option<Pattern>,
    options: ExtraOptions)

  /** The spelling of a named location in a configuration object; `Anywhere`
      has none, since it is what every other value, or none, stands for. */
  function LocationName(l: Location): Option<string> {
    match l
    case AtBeginning => Some("atBeginning")
    case AtEnd => Some("atEnd")
    case AtBeginningOrEnd => Some("atBeginningOrEnd")
    case Anywhere => None
  }

  /** The `switch` on the configured location: exact, case-sensitive string
      comparison, with every other value and a missing one falling through to
      the unanchored default. */
  function LocationOf(location: Option<string>): (l: Location)
    ensures l != Anywhere ==> location == LocationName(l)
    ensures forall x :: x != Anywhere && location == LocationName(x) ==> l == x
  {
    if location == Some("atBeginning") then AtBeginning
    else if location == Some("atEnd") then AtEnd
    else if location == Some("atBeginningOrEnd") then AtBeginningOrEnd
    else Anywhere
  }

  /** Every location is recovered from its spelling. */
  lemma LocationRoundTrip(l: Location)
    ensures LocationOf(LocationName(l)) == l
  {
  }

  /** What the source's pattern for a location says, read off the pattern
      source: `^f` "starts with f", `f$` "ends with f", `(^f)|(f)` "starts
      with f, or contains f", and `f` "contains f". */
  predicate LocationMeaning(l: Location, f: string, w: string) {
    match l
    case AtBeginning => IsPrefix(f, w)
    case AtEnd => IsSuffix(f, w)
    case AtBeginningOrEnd => IsPrefix(f, w) || Contains(f, w)
    case Anywhere => Contains(f, w)
  }

  /** The pattern `createRegex` builds for a location and a fragment:
      `^f`, `f$`, `(^f)|(f)` or `f`. */
  function Matcher(location: Option<string>, f: string): (p: Pattern)
    ensures forall k :: 0 <= k < |p.alternatives| ==> p.alternatives[k].literal == f
    ensures forall w :: Test(p, w) <==> LocationMeaning(LocationOf(location), f, w)
  {
    match LocationOf(location)
    case AtBeginning =>
      var p := Pattern([Branch(true, f, false)]);
      assert forall w :: Test(p, w) <==> BranchHolds(p.alternatives[0], w);
      p
    case AtEnd =>
      var p := Pattern([Branch(false, f, true)]);
      assert forall w :: Test(p, w) <==> BranchHolds(p.alternatives[0], w);
      p
    case AtBeginningOrEnd =>
      var p := Pattern([Branch(true, f, false), Branch(false, f, false)]);
      assert forall w :: Test(p, w) <==> BranchHolds(p.alternatives[0], w) || BranchHolds(p.alternatives[1], w);
      p
    case Anywhere =>
      var p := Pattern([Branch(false, f, false)]);
      assert forall w :: Test(p, w) <==> BranchHolds(p.alternatives[0], w);
      p
  }

  /** What the pattern for each location matches, stated with the string
      predicates of `LiteralMatch`. The second alternative of
      `(^f)|(f)` carries no `$`, so `AtBeginningOrEnd` matches wherever `f`
      occurs, exactly as `Anywhere` does. */
  lemma MatcherMeaning(location: Option<string>, f: string, w: string)
    ensures LocationOf(location) == AtBeginning ==> (Test(Matcher(location, f), w) <==> IsPrefix(f, w))
    ensures LocationOf(location) == AtEnd ==> (Test(Matcher(location, f), w) <==> IsSuffix(f, w))
    ensures LocationOf(location) == AtBeginningOrEnd ==> (Test(Matcher(location, f), w) <==> Contains(f, w))
    ensures LocationOf(location) == Anywhere ==> (Test(Matcher(location, f), w) <==> Contains(f, w))
  {
    match LocationOf(location)
    case AtBeginning =>
      StartAnchoredMeansPrefix(f, w);
    case AtEnd =>
      EndAnchoredMeansSuffix(f, w);
    case AtBeginningOrEnd =>
      TestAlternation(Branch(true, f, false), Branch(false, f, false), w);
      StartAnchoredMeansPrefix(f, w);
      UnanchoredMeansContains(f, w);
      AnchoredImpliesContains(f, w);
    case Anywhere =>
      UnanchoredMeansContains(f, w);
  }

  /** The two fragments agree on everything except the regex cache. */
  predicate SameConfiguration(d: DeviationFragment, e: DeviationFragment) {
    && d.location == e.location
    && d.fragment == e.fragment
    && d.syllables == e.syllables
    && d.options == e.options
  }

  /** The cache is empty or holds the pattern of the fragment's configuration. */
  predicate Valid(d: DeviationFragment) {
    d.regex == None || d.regex == Some(Matcher(d.location, d.fragment))
  }

  /** The constructor. The fragment, location and syllable count are taken
      out of the configuration object; what remains of it is kept, but no
      operation ever reads it. */
  function New(o: Options): (d: DeviationFragment)
    ensures Valid(d) && d.regex == None
    ensures d.location == o.location && d.fragment == o.word && d.syllables == o.syllables
    ensures d.options.notFollowedBy == o.notFollowedBy && d.options.alsoFollowedBy == o.alsoFollowedBy
  {
    DeviationFragment(o.location, o.word, o.syllables, None, ExtraOptions(o.notFollowedBy, o.alsoFollowedBy))
  }

  /** `createRegex`: (re)builds the pattern and stores it in the cache. */
  function CreateRegex(d: DeviationFragment): (e: DeviationFragment)
    ensures SameConfiguration(d, e)
    ensures Valid(e) && e.regex.Some?
  {
    d.(regex := Some(Matcher(d.location, d.fragment)))
  }

  /** `getRegex`: builds the pattern on the first call only, and from then on
      returns the cached one. */
  function GetRegex(d: DeviationFragment): (res: (DeviationFragment, Pattern))
    ensures SameConfiguration(d, res.0)
    ensures res.0.regex == Some(res.1)
    ensures d.regex.Some? ==> res.0 == d
    ensures Valid(d) ==> Valid(res.0) && res.1 == Matcher(d.location, d.fragment)
  {
    if d.regex.None? then
      var e := CreateRegex(d);
      (e, e.regex.value)
    else
      (d, d.regex.value)
  }

  /** Asking twice for the pattern is asking once: the second call changes
      nothing and returns what the first one did. */
  lemma GetRegexIdempotent(d: DeviationFragment)
    ensures GetRegex(GetRegex(d).0) == GetRegex(d)
  {
  }

  /** `occursIn`: whether the fragment's pattern matches the word. */
  function OccursIn(d: DeviationFragment, w: string): (res: (DeviationFragment, bool))
    requires Valid(d) && PlainLiteral(d.fragment)
    ensures SameConfiguration(d, res.0) && Valid(res.0) && res.0.regex.Some?
    ensures res.0 == GetRegex(d).0
    ensures LocationOf(d.location) == AtBeginning ==> (res.1 <==> IsPrefix(d.fragment, w))
    ensures LocationOf(d.location) == AtEnd ==> (res.1 <==> IsSuffix(d.fragment, w))
    ensures LocationOf(d.location) == AtBeginningOrEnd ==> (res.1 <==> Contains(d.fragment, w))
    ensures LocationOf(d.location) == Anywhere ==> (res.1 <==> Contains(d.fragment, w))
  {
    var (e, p) := GetRegex(d);
    MatcherMeaning(d.location, d.fragment, w);
    (e, Test(p, w))
  }

  /** `r` is `w` with `w[i..i + n]` replaced by one space: everything
      before position `i` and after the span is kept. */
  predicate SpacedOut(r: string, w: string, i: int, n: int) {
    && 0 <= i && 0 <= n && i + n <= |w|
    && |r| == |w| - n + 1
    && (forall k :: 0 <= k < i ==> r[k] == w[k])
    && r[i] == ' '
    && (forall k :: i + n <= k < |w| ==> r[k - n + 1] == w[k])
  }

  /** Replacing the first occurrence by one space spaces out exactly that
      occurrence. */
  lemma ReplaceFirstSpacesOut(w: string, f: string, i: int)
    requires IsFirstOccurrence(f, w, i)
    ensures SpacedOut(ReplaceFirst(w, f, " "), w, i, |f|)
  {
    var r := ReplaceFirst(w, f, " ");
    assert r[..i] == w[..i] && r[i..i + 1] == " " && r[i + 1..] == w[i + |f|..];
    forall k | 0 <= k < i
      ensures r[k] == w[k]
    {
      assert r[..i][k] == w[..i][k];
    }
    assert r[i] == r[i..i + 1][0];
    forall k | i + |f| <= k < |w|
      ensures r[k - |f| + 1] == w[k]
    {
      assert r[i + 1..][k - |f| + 1 - (i + 1)] == w[i + |f|..][k - (i + |f|)];
    }
  }

  /** `removeFrom`: the first literal occurrence of the fragment, wherever it
      is and whatever the location says, becomes one space. */
  function RemoveFrom(d: DeviationFragment, w: string): (r: string)
    ensures !Contains(d.fragment, w) ==> r == w
    ensures Contains(d.fragment, w) ==> |r| == |w| - |d.fragment| + 1
    ensures forall i :: IsFirstOccurrence(d.fragment, w, i) ==> SpacedOut(r, w, i, |d.fragment|)
  {
    var f := d.fragment;
    match IndexOf(f, w)
    case None => ReplaceFirst(w, f, " ")
    case Some(i) =>
      ReplaceFirstSpacesOut(w, f, i);
      assert forall j :: IsFirstOccurrence(f, w, j) ==> j == i;
      ReplaceFirst(w, f, " ")
  }

  /** `getSyllables`. */
  function GetSyllables(d: DeviationFragment): int {
    d.syllables
  }

  /** One public call on a fragment. */
  datatype Call =
    | CallOccursIn(word: string)
    | CallRemoveFrom(word: string)
    | CallGetRegex
    | CallCreateRegex
    | CallGetSyllables

  /** Whether the call reads or writes the pattern, and so leaves it built. */
  predicate UsesRegex(c: Call) {
    c.CallOccursIn? || c.CallGetRegex? || c.CallCreateRegex?
  }

  /** The fragment one call leaves behind. `occursIn` changes the fragment
      exactly as `getRegex` does (see `OccursIn`), so it is stepped that way,
      and a sequence of calls needs no requirement on the fragment's text. */
  function Step(d: DeviationFragment, c: Call): DeviationFragment {
    match c
    case CallOccursIn(_) => GetRegex(d).0
    case CallGetRegex => GetRegex(d).0
    case CallCreateRegex => CreateRegex(d)
    case CallRemoveFrom(_) => d
    case CallGetSyllables => d
  }

  /** The fragment after a sequence of calls, in order. */
  function Run(d: DeviationFragment, calls: seq<Call>): DeviationFragment
    decreases |calls|
  {
    if |calls| == 0 then d else Run(Step(d, calls[0]), calls[1..])
  }

  /** No sequence of calls changes the configuration or breaks the cache's
      consistency. Once built, the pattern stays the one of the
      configuration: `createRegex` may rebuild it, but only to an equal one. */
  lemma {:induction false} RunKeepsConfiguration(d: DeviationFragment, calls: seq<Call>)
    ensures SameConfiguration(d, Run(d, calls))
    ensures Valid(d) ==> Valid(Run(d, calls))
    ensures Valid(d) && d.regex.Some? ==> Run(d, calls).regex == d.regex
    decreases |calls|
  {
    if |calls| > 0 {
      RunKeepsConfiguration(Step(d, calls[0]), calls[1..]);
    }
  }

  /** The cache moves from empty to built exactly when some call reads or
      writes the pattern, is never emptied again, and then holds the pattern
      of the configuration. */
  lemma {:induction false} RunBuildsRegexOnce(d: DeviationFragment, calls: seq<Call>)
    ensures Run(d, calls).regex.Some? <==> d.regex.Some? || exists k :: 0 <= k < |calls| && UsesRegex(calls[k])
    ensures Valid(d) && Run(d, calls).regex.Some? ==> Run(d, calls).regex == Some(Matcher(d.location, d.fragment))
    decreases |calls|
  {
    RunKeepsConfiguration(d, calls);
    if |calls| > 0 {
      var next := Step(d, calls[0]);
      RunBuildsRegexOnce(next, calls[1..]);
      if exists k :: 0 <= k < |calls| && UsesRegex(calls[k]) {
        var k :| 0 <= k < |calls| && UsesRegex(calls[k]);
        if k > 0 {
          assert UsesRegex(calls[1..][k - 1]);
        }
      }
      if exists k :: 0 <= k < |calls[1..]| && UsesRegex(calls[1..][k]) {
        var k :| 0 <= k < |calls[1..]| && UsesRegex(calls[1..][k]);
        assert UsesRegex(calls[k + 1]);
      }
    }
  }

  /** `getSyllables` answers the count given at construction, whatever calls
      came before it. */
  lemma SyllablesFixedAtConstruction(o: Options, calls: seq<Call>)
    ensures GetSyllables(Run(New(o), calls)) == o.syllables
  {
    RunKeepsConfiguration(New(o), calls);
  }

  /** In this model, the answer of `occursIn` does not depend on whether the
      pattern was already cached: a call made after any other call answers
      the same as a first call. The source's pattern carries the global flag,
      so there a call straight after a hit searches only from the `lastIndex`
      that hit left, and can miss where a first call would match. */
  lemma OccursInStateless(d: DeviationFragment, v: string, w: string)
    requires Valid(d) && PlainLiteral(d.fragment)
    ensures OccursIn(OccursIn(d, v).0, w).1 == OccursIn(d, w).1
  {
  }

  /** The location plays no part in removal: two fragments with the same
      text remove the same span from every word. */
  lemma RemovalIgnoresLocation(d: DeviationFragment, e: DeviationFragment, w: string)
    requires d.fragment == e.fragment
    ensures RemoveFrom(d, w) == RemoveFrom(e, w)
  {
  }

  /** The options kept by the constructor are inert: replacing them changes
      no answer of any operation. */
  lemma ExtraOptionsInert(d: DeviationFragment, extra: ExtraOptions, w: string)
    requires Valid(d) && PlainLiteral(d.fragment)
    ensures OccursIn(d.(options := extra), w).1 == OccursIn(d, w).1
    ensures RemoveFrom(d.(options := extra), w) == RemoveFrom(d, w)
    ensures GetSyllables(d.(options := extra)) == GetSyllables(d)
  {
  }
}

=== FILE: direct_precedence.dfy ===
/** The direct-precedence exception check of passive-voice detection: is the
    participle of a sentence part directly preceded by a word that rules out
    a passive reading?

    The three helpers the check composes and the six per-language word lists
    are defined elsewhere in the system and are not part of this model. They
    enter as values: the helpers as the fields of a `Helpers` record of total
    functions over an unspecified matcher type `R` and an unspecified type
    `M` of what `getWordIndices` returns, the word lists
    as the fields of a `WordLists` record, built once when the module loads
    and only ever read afterwards. */
module DirectPrecedence {

  /** The languages with their own list. */
  datatype Language = English | French | Spanish | Italian | Dutch | Polish

  /** The "cannot directly precede a passive participle" list of each language. */
  datatype WordLists = WordLists(
    english: seq<string>,
    french: seq<string>,
    spanish: seq<string>,
    italian: seq<string>,
    dutch: seq<string>,
    polish: seq<string>)

  /** The imported helpers, with nothing assumed of them beyond their
      argument and result types: `arrayToRegex` turns a word list into a
      matcher, `getWordIndices` takes a text and a matcher, and
      `includesIndex` takes what `getWordIndices` returned and an index. */
  datatype Helpers<!R, !M> = Helpers(
    arrayToRegex: seq<string> -> R,
    getWordIndices: (string, R) -> M,
    includesIndex: (M, int) -> bool)

  /** The language code of each language. */
  function Code(l: Language): string {
    match l
    case English => "en"
    case French => "fr"
    case Spanish => "es"
    case Italian => "it"
    case Dutch => "nl"
    case Polish => "pl"
  }

  /** The language whose list a code selects. A code selects a language
      other than English only by being exactly that language's code; every
      other string, `"en"` included, selects English. */
  function LanguageOf(code: string): (l: Language)
    ensures l != English ==> code == Code(l)
    ensures forall x :: code == Code(x) ==> l == x
  {
    match code
    case "fr" => French
    case "es" => Spanish
    case "it" => Italian
    case "nl" => Dutch
    case "pl" => Polish
    case _ => English
  }

  /** Every language is selected by its own code. */
  lemma LanguageRoundTrip(l: Language)
    ensures LanguageOf(Code(l)) == l
  {
  }

  /** The codes that select a list of their own. */
  const ListedCodes: set<string> := {"fr", "es", "it", "nl", "pl"}

  /** Dispatch is total and falls back to English exactly on the codes
      outside the listed five. */
  lemma EnglishIsTheDefault(code: string)
    ensures LanguageOf(code) == English <==> code !in ListedCodes
  {
    if code in ListedCodes {
      assert code == Code(LanguageOf(code));
    }
  }

  /** The list of a language. */
  function ListOf(lists: WordLists, l: Language): seq<string> {
    match l
    case English => lists.english
    case French => lists.french
    case Spanish => lists.spanish
    case Italian => lists.italian
    case Dutch => lists.dutch
    case Polish => lists.polish
  }

  /** The check: build a matcher from the selected language's list, pass the
      sentence part and that matcher to `getWordIndices`, and pass its result
      and the participle index to `includesIndex`. The result is that
      composition of the helpers on the list `LanguageOf` selects, and
      nothing else. */
  function IsDirectPrecedenceException<R, M>(
    h: Helpers<R, M>, lists: WordLists, sentencePart: string, participleIndex: int, language: string): (r: bool)
    ensures r == h.includesIndex(
      h.getWordIndices(sentencePart, h.arrayToRegex(ListOf(lists, LanguageOf(language)))), participleIndex)
  {
    var regex :=
      if language == "fr" then h.arrayToRegex(lists.french)
      else if language == "es" then h.arrayToRegex(lists.spanish)
      else if language == "it" then h.arrayToRegex(lists.italian)
      else if language == "nl" then h.arrayToRegex(lists.dutch)
      else if language == "pl" then h.arrayToRegex(lists.polish)
      else h.arrayToRegex(lists.english);
    var matches := h.getWordIndices(sentencePart, regex);
    h.includesIndex(matches, participleIndex)
  }

  /** Any code outside the listed five answers as `"en"` does. */
  lemma UnlistedCodeAnswersAsEnglish<R, M>(
    h: Helpers<R, M>, lists: WordLists, sentencePart: string, participleIndex: int, language: string)
    requires language !in ListedCodes
    ensures IsDirectPrecedenceException(h, lists, sentencePart, participleIndex, language)
         == IsDirectPrecedenceException(h, lists, sentencePart, participleIndex, "en")
  {
    EnglishIsTheDefault(language);
  }

  /** Two codes that select the same list give the same answer everywhere. */
  lemma SameListSameAnswer<R, M>(h: Helpers<R, M>, lists: WordLists, language: string, other: string)
    requires ListOf(lists, LanguageOf(language)) == ListOf(lists, LanguageOf(other))
    ensures forall s: string, i: int ::
      IsDirectPrecedenceException(h, lists, s, i, language) == IsDirectPrecedenceException(h, lists, s, i, other)
  {
  }

  /** Only the selected list matters: the lists of the other languages can
      be anything. */
  lemma OnlySelectedListMatters<R, M>(
    h: Helpers<R, M>, lists: WordLists, others: WordLists, sentencePart: string, participleIndex: int, language: string)
    requires ListOf(lists, LanguageOf(language)) == ListOf(others, LanguageOf(language))
    ensures IsDirectPrecedenceException(h, lists, sentencePart, participleIndex, language)
         == IsDirectPrecedenceException(h, others, sentencePart, participleIndex, language)
  {
  }

  /** Dispatch compares whole codes, case-sensitively. */
  lemma DispatchIsExact()
    ensures LanguageOf("FR") == English && LanguageOf("fr-FR") == English && LanguageOf("") == English
    ensures LanguageOf("fr") == French
  {
  }
}

=== FILE: literal_match.dfy ===
/** Literal string matching: where a fragment occurs in a word, and the
    first-occurrence replacement that a string-pattern `replace` performs. */
module LiteralMatch {
  import opened Wrappers

  /** `f` occurs in `w` starting at position `i`. */
  predicate OccursAt(f: string, w: string, i: int) {
    0 <= i && i + |f| <= |w| && w[i..i + |f|] == f
  }

  /** `w` starts with `f`. */
  predicate IsPrefix(f: string, w: string) {
    |f| <= |w| && w[..|f|] == f
  }

  /** `w` ends with `f`. */
  predicate IsSuffix(f: string, w: string) {
    |f| <= |w| && w[|w| - |f|..] == f
  }

  /** `f` is a substring of `w`: some slice of `w` equals `f`. */
  predicate Contains(f: string, w: string) {
    exists i, j :: 0 <= i <= j <= |w| && w[i..j] == f
  }

  /** `i` is the leftmost position at which `f` occurs in `w`. */
  predicate IsFirstOccurrence(f: string, w: string, i: int) {
    OccursAt(f, w, i) && forall j :: 0 <= j < i ==> !OccursAt(f, w, j)
  }

  lemma ContainsIffOccurs(f: string, w: string)
    ensures Contains(f, w) <==> exists i :: 0 <= i <= |w| && OccursAt(f, w, i)
  {
    if Contains(f, w) {
      var i, j :| 0 <= i <= j <= |w| && w[i..j] == f;
      assert OccursAt(f, w, i);
    }
    if exists i :: 0 <= i <= |w| && OccursAt(f, w, i) {
      var i :| 0 <= i <= |w| && OccursAt(f, w, i);
      assert w[i..i + |f|] == f;
    }
  }

  /** A prefix or a suffix is in particular a substring. */
  lemma AnchoredImpliesContains(f: string, w: string)
    ensures IsPrefix(f, w) ==> Contains(f, w)
    ensures IsSuffix(f, w) ==> Contains(f, w)
  {
    if IsPrefix(f, w) {
      assert w[0..|f|] == f;
    }
    if IsSuffix(f, w) {
      assert w[|w| - |f|..|w|] == f;
    }
  }

  /** Leftmost position at or after `from` where `f` occurs in `w`. */
  function IndexFrom(f: string, w: string, from: nat): (r: Option<nat>)
    decreases |w| - from + 1
    ensures r.Some? ==> from <= r.value && OccursAt(f, w, r.value)
    ensures r.Some? ==> forall j :: from <= j < r.value ==> !OccursAt(f, w, j)
    ensures r.None? ==> forall j :: from <= j ==> !OccursAt(f, w, j)
  {
    if from + |f| > |w| then None
    else if w[from..from + |f|] == f then Some(from)
    else IndexFrom(f, w, from + 1)
  }

  /** Leftmost position where `f` occurs in `w`, if it occurs at all. */
  function IndexOf(f: string, w: string): (r: Option<nat>)
    ensures r.Some? <==> Contains(f, w)
    ensures r.Some? ==> IsFirstOccurrence(f, w, r.value)
  {
    ContainsIffOccurs(f, w);
    IndexFrom(f, w, 0)
  }

  /** The first occurrence is unique. */
  lemma FirstOccurrenceUnique(f: string, w: string, i: int, j: int)
    requires IsFirstOccurrence(f, w, i) && IsFirstOccurrence(f, w, j)
    ensures i == j
  {
  }

  /** Replaces the leftmost literal occurrence of `f` in `w` by `rep`,
      leaving `w` alone when `f` does not occur: what `String.prototype.replace`
      does when its pattern argument is a string and the replacement holds no
      `$` substitution. */
  function ReplaceFirst(w: string, f: string, rep: string): (r: string)
    ensures !Contains(f, w) ==> r == w
    ensures Contains(f, w) ==> |r| == |w| - |f| + |rep|
    ensures forall i :: IsFirstOccurrence(f, w, i) ==>
              r[..i] == w[..i] && r[i..i + |rep|] == rep && r[i + |rep|..] == w[i + |f|..]
  {
    match IndexOf(f, w)
    case None => w
    case Some(i) =>
      assert forall j :: IsFirstOccurrence(f, w, j) ==> j == i;
      w[..i] + rep + w[i + |f|..]
  }
}

=== FILE: patterns.dfy ===
/** The regular expressions a deviation fragment builds, as data.

    Every pattern built from a fragment `f` has one of the shapes `^f`, `f$`,
    `(^f)|(f)` or `f`, which is an alternation of literals, each optionally
    anchored at the start or at the end of the input. This module models
    exactly that family. `f` is read literally, so the model agrees with a
    regular-expression engine only when `f` holds no metacharacter. */
module Patterns {
  import opened LiteralMatch

  /** One alternative of a pattern: `^`, if `anchoredStart`, then `literal`,
      then `$`, if `anchoredEnd`. */
  datatype Branch = Branch(anchoredStart: bool, literal: string, anchoredEnd: bool)

  /** `b1|b2|...`. The empty alternation matches nothing. */
  datatype Pattern = Pattern(alternatives: seq<Branch>)

  /** Characters with a special meaning in a regular-expression source. */
  const Metacharacters: set<char> :=
    {'\\', '^', '$', '.', '|', '?', '*', '+', '(', ')', '[', ']', '{', '}'}

  /** `f` spliced into a regular-expression source matches itself literally. */
  predicate PlainLiteral(f: string) {
    forall k :: 0 <= k < |f| ==> f[k] !in Metacharacters
  }

  /** Branch `b` matches `w` with its literal starting at position `i`. */
  predicate BranchMatchesAt(b: Branch, w: string, i: int) {
    && OccursAt(b.literal, w, i)
    && (b.anchoredStart ==> i == 0)
    && (b.anchoredEnd ==> i + |b.literal| == |w|)
  }

  /** What a branch means, stated with the string predicates alone: `^f$`
      matches only `f` itself, `^f` the words starting with `f`, `f$` those
      ending with it, and bare `f` those containing it. */
  predicate BranchHolds(b: Branch, w: string) {
    if b.anchoredStart && b.anchoredEnd then w == b.literal
    else if b.anchoredStart then IsPrefix(b.literal, w)
    else if b.anchoredEnd then IsSuffix(b.literal, w)
    else Contains(b.literal, w)
  }

  /** A branch matches at some position iff it holds of the word. */
  lemma BranchMeaning(b: Branch, w: string)
    ensures (exists i :: 0 <= i <= |w| && BranchMatchesAt(b, w, i)) <==> BranchHolds(b, w)
  {
    var f := b.literal;
    if b.anchoredStart && b.anchoredEnd {
      if w == f {
        assert w[0..|f|] == f;
        assert BranchMatchesAt(b, w, 0);
      }
    } else if b.anchoredStart {
      if IsPrefix(f, w) {
        assert BranchMatchesAt(b, w, 0);
      }
    } else if b.anchoredEnd {
      if IsSuffix(f, w) {
        assert BranchMatchesAt(b, w, |w| - |f|);
      }
    } else {
      ContainsIffOccurs(f, w);
      if Contains(f, w) {
        var i :| 0 <= i <= |w| && OccursAt(f, w, i);
        assert BranchMatchesAt(b, w, i);
      }
    }
  }

  /** `BranchMeaning` for every alternative of a pattern. */
  lemma AlternativesMeaning(p: Pattern, w: string)
    ensures forall k :: 0 <= k < |p.alternatives| ==>
      ((exists i :: 0 <= i <= |w| && BranchMatchesAt(p.alternatives[k], w, i)) <==> BranchHolds(p.alternatives[k], w))
  {
    forall k | 0 <= k < |p.alternatives|
      ensures (exists i :: 0 <= i <= |w| && BranchMatchesAt(p.alternatives[k], w, i)) <==> BranchHolds(p.alternatives[k], w)
    {
      BranchMeaning(p.alternatives[k], w);
    }
  }

  /** Whether `p` matches somewhere in `w`: what `RegExp.prototype.test`
      answers for a fresh scan (one that starts at position 0). It holds
      exactly when one of the alternatives holds of the word. */
  predicate Test(p: Pattern, w: string)
    ensures Test(p, w) <==> exists k :: 0 <= k < |p.alternatives| && BranchHolds(p.alternatives[k], w)
  {
    AlternativesMeaning(p, w);
    exists k, i :: 0 <= k < |p.alternatives| && 0 <= i <= |w| && BranchMatchesAt(p.alternatives[k], w, i)
  }

  /** An alternation matches iff one of its alternatives does. */
  lemma TestAlternation(b: Branch, c: Branch, w: string)
    ensures Test(Pattern([b, c]), w) <==> Test(Pattern([b]), w) || Test(Pattern([c]), w)
  {
    var p := Pattern([b, c]);
    if Test(p, w) {
      var k, i :| 0 <= k < 2 && 0 <= i <= |w| && BranchMatchesAt(p.alternatives[k], w, i);
      if k == 0 {
        assert BranchMatchesAt(Pattern([b]).alternatives[0], w, i);
      } else {
        assert BranchMatchesAt(Pattern([c]).alternatives[0], w, i);
      }
    }
    if Test(Pattern([b]), w) {
      var k, i :| 0 <= k < 1 && 0 <= i <= |w| && BranchMatchesAt(Pattern([b]).alternatives[k], w, i);
      assert BranchMatchesAt(p.alternatives[0], w, i);
    }
    if Test(Pattern([c]), w) {
      var k, i :| 0 <= k < 1 && 0 <= i <= |w| && BranchMatchesAt(Pattern([c]).alternatives[k], w, i);
      assert BranchMatchesAt(p.alternatives[1], w, i);
    }
  }

  /** `^f` matches `w` iff `w` starts with `f`. */
  lemma StartAnchoredMeansPrefix(f: string, w: string)
    ensures Test(Pattern([Branch(true, f, false)]), w) <==> IsPrefix(f, w)
  {
    var p := Pattern([Branch(true, f, false)]);
    if IsPrefix(f, w) {
      assert BranchMatchesAt(p.alternatives[0], w, 0);
    }
  }

  /** `f$` matches `w` iff `w` ends with `f`. */
  lemma EndAnchoredMeansSuffix(f: string, w: string)
    ensures Test(Pattern([Branch(false, f, true)]), w) <==> IsSuffix(f, w)
  {
    var p := Pattern([Branch(false, f, true)]);
    if IsSuffix(f, w) {
      assert BranchMatchesAt(p.alternatives[0], w, |w| - |f|);
    }
  }

  /** Unanchored `f` matches `w` iff `f` is a substring of `w`. */
  lemma UnanchoredMeansContains(f: string, w: string)
    ensures Test(Pattern([Branch(false, f, false)]), w) <==> Contains(f, w)
  {
    var p := Pattern([Branch(false, f, false)]);
    ContainsIffOccurs(f, w);
    if Contains(f, w) {
      var i :| 0 <= i <= |w| && OccursAt(f, w, i);
      assert BranchMatchesAt(p.alternatives[0], w, i);
    }
  }
}

=== FILE: wrappers.dfy ===
/** The optional-value datatype used across the model: a missing option
    field in a configuration object, or "no occurrence" from a search. */
module Wrappers {

  datatype Option<+T> = None | Some(value: T)
}
